=== FILE: README.md ===
# hash_parity, modelled in Dafny

`hash_parity.rs` is a test harness for a simfile parser, the engine. It
walks a directory of compressed simfiles (`<name>.sm.zst` or
`<name>.ssc.zst`). For each one it finds the recorded baseline by the MD5
digest of the decompressed bytes, runs the engine, and checks that the
engine reproduces every recorded chart hash. The harness behaves like a
libtest runner:
- a filter, `--exact`, `--skip`, `--ignored` and `--list`;
- one line per test, then a summary;
- exit code 101 when any fixture fails.

The model covers the four parts of the harness that make decisions:

- **Chart matcher** (`Matcher`, `MatcherProperties`). Keeps the
  `dance-single` and `dance-double` charts of both sides. Groups them by
  lower-cased (step type, difficulty). Walks the golden groups in ascending
  key order. The first golden group that the engine lacks (`MissingChart`)
  or whose hash list differs position by position (`Mismatch`) decides the
  verdict. The model also covers the printed comparison rows.
- **Fixture eligibility** (`Fixtures`). Rust's `Path::extension` and
  `Path::file_stem` rules. The outer `zst` extension. The lower-cased inner
  `sm`/`ssc` extension, which becomes the format hint.
- **Runner** (`Runner`). Sorts the fixtures by name, then applies the
  filter, skip and ignored rules, or lists the survivors. Otherwise it
  checks the fixtures one at a time and tallies passes and failures. The
  exit code is 0 or 101.
- **Baseline store** (`BaselineStore`, `Pipeline`). The location is
  `<digest[0..2]>/<digest>.json.zst`. `check_file` is modelled as a
  sequence of stages, and the first stage that fails decides the error.

`Text` holds the string operations the harness relies on: ASCII
lower-casing, `String`'s lexicographic order, `str::contains` and
last-index search. `Wrappers` holds `Option`. `Scenarios` works through
concrete inputs.

Some effects are not computed by the model. Reading files, zstd, MD5,
JSON parsing, the engine and the directory walk all become inputs:
- the walked file list;
- whether the fixture root exists;
- what reading and decompressing a fixture gave, as a `FixtureContent`;
- the baseline store, as a map from location to `StoredBaseline`;
- the engine's output, as an `EngineOutput`;
- a per-fixture check function in `Runner`.

Earlier versions of this harness differed on these points; the model follows this version's code:
- A missing baseline is a hard failure, not a silent skip.
- Duplicate groups (several edit charts of one difficulty) are compared
  positionally, not as multisets.
- Only `dance-single` and `dance-double` are in scope.

## Model

| member | source | states |
|---|---|---|
| Text.Lower | hash_parity.rs:239-245 | ASCII lower-casing keeps the length, turns each ASCII capital into its small letter (code point + 32) and changes no other character |
| Text.StrLessTotal | hash_parity.rs:74 | `String`'s lexicographic order is total: two different strings are ordered one way or the other |
| Text.StrLessTransitive | hash_parity.rs:74 | `String`'s lexicographic order is transitive |
| Text.Contains | hash_parity.rs:85-89 | `str::contains` holds exactly when the needle occurs at some index of the name; the empty needle always occurs |
| Fixtures.FileName | hash_parity.rs:43-49 | `Path::file_name`: the text after the last `/`, with no `/` in it; a path without `/` is its own file name |
| Fixtures.Extension | hash_parity.rs:43 | `Path::extension`: a result is the dot-free text after the last dot. There is none exactly for "..", for a name without a dot, and when the only dot is the first character |
| Fixtures.FileStem | hash_parity.rs:49 | `Path::file_stem`: the name is the non-empty stem, a dot and the extension; without an extension the stem is the whole name |
| Fixtures.FormatHint | hash_parity.rs:42-58 | a file is eligible only if its outer extension is exactly `zst` and the lower-cased inner extension is `sm` or `ssc`; that inner extension is the hint |
| Fixtures.ShapeIsEligible | hash_parity.rs:48-58 | every `<base>.<inner>.zst` with a non-empty base, a dot-free inner part and an `sm`/`ssc` inner part in any case is eligible, with the lower-cased inner part as hint |
| Fixtures.EligibleHasShape | hash_parity.rs:42-58 | the converse: every eligible file name has the `<base>.<inner>.zst` shape, and its hint is its inner extension lower-cased |
| Fixtures.NestedFixtureIsEligible | hash_parity.rs:42-70 | `PackA/Song1/file.ssc.zst` is eligible with hint `ssc` |
| Fixtures.Discover | hash_parity.rs:36-71 | the walk yields a fixture exactly for each eligible file, with that file's hint, as many times as the walk listed the file |
| Fixtures.DiscoveredIffEligible | hash_parity.rs:36-71 | a fixture is discovered if and only if its file was walked and is eligible with that hint |
| BaselineStore.Locate | hash_parity.rs:205-211 | the shard is two characters long and is the first two characters of the file name; the file name reads back as the digest plus `.json.zst` |
| BaselineStore.LocateInjective | hash_parity.rs:203-211 | distinct digests never share a baseline location |
| BaselineStore.LocateDigestOf | hash_parity.rs:208-211 | every `.json.zst` file in the shard named by its first two characters is the location of its digest |
| Matcher.GroupBy | hash_parity.rs:237-264 | the grouping loops: a key is present exactly when some in-scope entry has it, and maps to those entries' payloads in input order |
| Matcher.EntryInOwnGroup | hash_parity.rs:247-250 | every in-scope entry is pushed onto the group of its own key, and that key is in the grouping map |
| Matcher.KeyLessTotal | hash_parity.rs:266-267 | the tuple order on keys (step type first, then difficulty) is total |
| Matcher.SortedKeys | hash_parity.rs:266-267 | the golden keys, each once, in strictly ascending order; a key is listed exactly when its golden group is non-empty |
| Matcher.GroupMatches | hash_parity.rs:311-315 | equal lengths and equal hashes at every index hold exactly when the golden hash list equals the engine's |
| Matcher.Rows | hash_parity.rs:285-309 | one printed row per index up to the longer list. A row is ok exactly when both sides have a hash there and they are equal. It is labelled by the golden meter, or else by the 1-based position. It shows the golden and engine hashes at that index, or none where a list is shorter |
| Matcher.RowsAgreeWithVerdict | hash_parity.rs:285-315 | all printed rows are ok if and only if the group matches |
| Matcher.WalkFindsFirstFailure | hash_parity.rs:271-331 | the compare loop returns Ok exactly when every entry passes. Otherwise it reports the first failing entry's failure, even though visited keys are removed from the engine's map |
| Matcher.CompareCharts | hash_parity.rs:236-333 | Ok exactly when every golden group is reproduced. Otherwise the verdict names the smallest failing key: MissingChart when the engine has no such group, else Mismatch carrying both hash lists |
| MatcherProperties.VerdictDeterminedByGroups | hash_parity.rs:236-333 | the verdict depends only on the golden groups and the engine's groups at golden keys |
| MatcherProperties.SpecDeterminesVerdict | hash_parity.rs:271-333 | at most one verdict meets the matcher's specification for the same groups |
| MatcherProperties.InScopeOnly | hash_parity.rs:240-242 | dropping out-of-scope entries leaves every group unchanged |
| MatcherProperties.OutOfScopeIgnored | hash_parity.rs:239-242 | charts with other step types, on either side, never change the verdict |
| MatcherProperties.ExtraActualGroupsIgnored | hash_parity.rs:271-283 | engine charts in groups with no golden chart never change the verdict |
| MatcherProperties.MetersIgnored | hash_parity.rs:287-315 | meters only label the printed rows: changing them never changes the verdict |
| MatcherProperties.NoGoldenGroupsIsOk | hash_parity.rs:271-333 | with no in-scope golden chart the verdict is Ok, whatever the engine computed |
| MatcherProperties.MissingGroupNeverMismatch | hash_parity.rs:272-283 | a Mismatch names a group the engine did produce, with hash lists that differ |
| MatcherProperties.VerdictNamesInScopeGroup | hash_parity.rs:239-283 | a MissingChart or Mismatch always names a `dance-single` or `dance-double` group, since no other group reaches the compare loop |
| MatcherProperties.ReorderedEditsMismatch | hash_parity.rs:311-315 | two edit charts in swapped order give a Mismatch: comparison is positional |
| MatcherProperties.SingleGroupVerdict | hash_parity.rs:271-333 | with a single golden group, the verdict is Ok, MissingChart or Mismatch depending only on that group's two hash lists |
| Pipeline.CheckFile | hash_parity.rs:193-234 | a fixture passes exactly when the baseline is found and parsed, the engine succeeds and the charts compare Ok. Each failing stage gives its own error: fixture read, fixture decompress, missing baseline (with digest and location), baseline read, decompress and parse, and engine failure (exactly when the engine rejects the fixture). A chart failure carries the matcher's non-Ok verdict |
| Runner.SortByName | hash_parity.rs:73-74 | the same fixtures, as a multiset, ordered by name |
| Runner.FilterKept | hash_parity.rs:76-90 | the fixtures that pass the filter (exact or substring) and no skip string, in their original order, each as often as before |
| Runner.SelectTests | hash_parity.rs:73-95 | the selection is sorted and a subsequence of the sorted fixtures. It is empty under `--ignored`; otherwise it holds exactly the fixtures passing the filters |
| Runner.SelectedIff | hash_parity.rs:76-95 | a fixture is selected if and only if it was discovered, passes the filter and every skip, and `--ignored` is off |
| Runner.SelectionIgnoresWalkOrder | hash_parity.rs:73-74 | two walks listing the same files in any order select the same fixtures in the same order |
| Runner.FailuresOf | hash_parity.rs:124-131 | there are no failures exactly when every fixture passes. Each failure names a fixture that failed with that error, and every failing fixture has its failure in the list |
| Runner.FailureCount | hash_parity.rs:124-131 | the failure list has one entry per failing position |
| Runner.RunTests | hash_parity.rs:104-136 | passed plus failed is the number of fixtures. Failed is the number of failing fixtures and of recorded failures, which are those of `FailuresOf`. There are none exactly when every check passes |
| Runner.Names | hash_parity.rs:97-102 | `--list` prints one name per selected fixture, in order |
| Runner.Harness | hash_parity.rs:28-169 | no fixture root means nothing runs. `--list` lists the selection. Otherwise it runs and tallies the selection. The exit code is 101 exactly when a selected fixture failed, else 0 |
| Scenarios.ScenarioLocation | hash_parity.rs:205-211 | the baseline of digest `d41d8…427e` lives at `d4/d41d8…427e.json.zst` |
| Scenarios.ScenarioPass | hash_parity.rs:193-333 | an engine that reproduces the one recorded Hard dance-single hash passes, with "Hard" and "hard" grouped together |
| Scenarios.ScenarioMismatch | hash_parity.rs:311-329 | a different hash fails with a Mismatch carrying the engine's and the baseline's hash lists |
| Scenarios.ScenarioMissingChart | hash_parity.rs:271-283 | an engine producing only a dance-double chart fails with the dance-single group missing |
| Scenarios.ScenarioMissingBaseline | hash_parity.rs:213-220 | with nothing stored under the digest the fixture fails with the missing baseline's location, whatever the engine computes |

## Left out

- File-system access, the `WalkDir` walk, `is_file` and `exists` are not modelled. Their results are inputs: the walked file list, whether the fixture root exists, and the contents of the baseline store.
- `resolve_baseline_dir` (hash_parity.rs:185-191) is not modelled. It only chooses the baseline root directory, and the model's store is already keyed by location under that root.
- zstd decompression, MD5, `serde_json` parsing and the engine itself are not modelled. Their outcomes per fixture are inputs (`FixtureContent`, `StoredBaseline`, `EngineOutput`). The digest is a 32-character lower-case hex string.
- Printed output is not modelled: the progress lines, the failure report, the rerun hints and the message text of each error. Errors are kept as a `CheckError` value instead of a formatted `String`, so `trim` has no counterpart. The values printed in each row are modelled by `Matcher.Rows`.
- Walked paths are taken as already relative to the fixture root. This stands in for `strip_prefix` and `to_string_lossy` (hash_parity.rs:61-64), so a walked path is the test name.
- Parsing `Arguments` from the command line is not modelled. `Args` holds the flags as already parsed.
- `Fixtures.FormatHint`: the inner extension is lower-cased with ASCII rules, where the source uses Unicode `to_lowercase`. Only ASCII letters lower-case to `s`, `m` or `c`, so eligibility is the same. A non-eligible file's hint is never used.
- Paths are strings with `/` separators. Non-UTF-8 names, which `to_str` turns into an empty extension, and other separators are not modelled. `Fixtures.FileName` does not treat trailing separators or a final `..` specially, since a walked file's path has neither.
- `Runner.RunTests`: the counters are unbounded naturals. The source's `u64` counters cannot overflow, since they never exceed the number of fixtures.
- `Runner.SortByName`: stability is not stated. Test names are relative paths of distinct files, so no two fixtures share a name.
- `Runner.Harness`: `std::process::exit(101)` and a normal return are both represented by the returned exit code.

=== FILE: baseline_store.dfy ===
/**
 * The sharded, content-addressed baseline store: where the recorded result
 * for a fixture lives, given the MD5 digest of the fixture's raw bytes.
 *
 * A baseline for digest `d` is the file `<d[0..2]>/<d>.json.zst` under the
 * baseline root.
 */
module BaselineStore {
  import opened Wrappers

  /** The hexadecimal digits Rust's `{:x}` formatting of an MD5 digest uses. */
  predicate IsLowerHex(c: char) {
    '0' <= c <= '9' || 'a' <= c <= 'f'
  }

  /** An MD5 digest formatted with `{:x}`: 32 lower-case hexadecimal digits. */
  type Digest = d: string | |d| == 32 && forall i :: 0 <= i < |d| ==> IsLowerHex(d[i])
    witness "00000000000000000000000000000000"

  /** The suffix of every baseline file name. */
  const BaselineSuffix: string := ".json.zst"

  /** Where a baseline lives under the baseline root: a shard directory and a file in it. */
  datatype BaselineLocation = BaselineLocation(shard: string, fileName: string)

  /**
   * The location of the baseline for `digest`. The source slices the first
   * two characters of the digest, so it needs a digest of at least two.
   */
  function Locate(digest: string): (loc: BaselineLocation)
    requires |digest| >= 2
    ensures |loc.shard| == 2
    ensures |loc.shard| <= |loc.fileName| && loc.fileName[..2] == loc.shard
    ensures DigestOf(loc.fileName) == Some(digest)
  {
    BaselineLocation(digest[0..2], digest + BaselineSuffix)
  }

  /** Reads the digest back from a baseline file name, if it has the baseline suffix. */
  function DigestOf(fileName: string): (r: Option<string>)
    ensures r.Some? ==> r.value + BaselineSuffix == fileName
    ensures r.None? ==> !(|BaselineSuffix| <= |fileName| && fileName[|fileName| - |BaselineSuffix|..] == BaselineSuffix)
  {
    var n := |fileName| - |BaselineSuffix|;
    if 0 <= n && fileName[n..] == BaselineSuffix then Some(fileName[..n]) else None
  }

  /** Distinct digests never share a baseline file: the store is content-addressed. */
  lemma {:induction false} LocateInjective(d1: string, d2: string)
    requires |d1| >= 2 && |d2| >= 2
    requires Locate(d1) == Locate(d2)
    ensures d1 == d2
  {
    assert Some(d1) == DigestOf(Locate(d1).fileName) == DigestOf(Locate(d2).fileName) == Some(d2);
  }

  /** Every file name with the baseline suffix, whose digest part has two characters or more, is the location of that digest. */
  lemma {:induction false} LocateDigestOf(shard: string, fileName: string)
    requires DigestOf(fileName).Some? && |DigestOf(fileName).value| >= 2
    requires shard == fileName[..2]
    ensures Locate(DigestOf(fileName).value) == BaselineLocation(shard, fileName)
  {
    var d := DigestOf(fileName).value;
    assert fileName == d + BaselineSuffix;
    assert d[0..2] == fileName[..2];
  }
}

=== FILE: fixtures.dfy ===
/**
 * Fixture discovery: which walked files are fixtures, the format hint each
 * one records, and the fixture list built from a walk.
 *
 * A fixture is a compressed simfile named `<base>.<sm|ssc>.zst`. Its test
 * name is its path relative to the fixture root, and its format hint is the
 * lower-cased inner extension.
 */
module Fixtures {
  import opened Wrappers
  import opened Text

  /** The outer extension every fixture archive carries. */
  const ArchiveExtension: string := "zst"

  /** The simfile formats accepted as an inner extension, after lower-casing. */
  predicate IsSimfileFormat(hint: string) {
    hint == "sm" || hint == "ssc"
  }

  /** The last `/`-separated component of a walked file's path (Rust's `Path::file_name`). */
  function FileName(path: string): (r: string)
    ensures '/' !in r
    ensures |r| <= |path| && path[|path| - |r|..] == r
    ensures '/' !in path ==> r == path
    ensures '/' in path ==> |r| < |path| && path[|path| - |r| - 1] == '/'
  {
    match LastIndexOf(path, '/')
    case None => path
    case Some(i) => path[i + 1..]
  }

  /**
   * Rust's `Path::extension` applied to a file name: the text after the last
   * '.', except that ".." and a name whose only '.' is its first character
   * have no extension.
   */
  function Extension(name: string): (r: Option<string>)
    ensures r.Some? ==> '.' !in r.value
    ensures r.Some? ==> |r.value| < |name| - 1 && name[|name| - |r.value| - 1] == '.'
                        && name[|name| - |r.value|..] == r.value
    ensures r.None? <==> name == ".." || '.' !in name || (name[0] == '.' && '.' !in name[1..])
  {
    if name == ".." then None
    else match LastIndexOf(name, '.')
      case None => None
      case Some(i) =>
        if i == 0 then
          assert '.' !in name[1..] by {
            forall j | 0 <= j < |name[1..]| ensures name[1..][j] != '.' {
              assert name[1..][j] == name[j + 1];
            }
          }
          None
        else
          Some(name[i + 1..])
  }

  /**
   * Rust's `Path::file_stem` applied to a file name: the name without its
   * extension and the dot before it, or the whole name when it has none.
   */
  function FileStem(name: string): (r: string)
    ensures Extension(name).Some? ==> name == r + "." + Extension(name).value && r != ""
    ensures Extension(name).None? ==> r == name
  {
    match Extension(name)
    case None => name
    case Some(ext) => name[..|name| - |ext| - 1]
  }

  /**
   * The eligibility test of the walk: `Some(hint)` when the file's outer
   * extension is exactly `zst` and the lower-cased extension of the remaining
   * stem is a simfile format; that lower-cased extension is the hint.
   */
  function FormatHint(path: string): (r: Option<string>)
    ensures r.Some? ==> IsSimfileFormat(r.value)
    ensures r.Some? ==> Extension(FileName(path)) == Some(ArchiveExtension)
    ensures r.Some? ==> r.value == Lower(Extension(FileStem(FileName(path))).GetOr(""))
  {
    var name := FileName(path);
    if Extension(name) != Some(ArchiveExtension) then None
    else
      var hint := Lower(Extension(FileStem(name)).GetOr(""));
      if IsSimfileFormat(hint) then Some(hint) else None
  }

  /** The shape `<base>.<inner>.zst` of a fixture file name, with a non-empty base and a dot-free inner extension. */
  predicate FixtureShape(name: string, base: string, inner: string) {
    base != "" && '.' !in inner && name == base + "." + inner + ".zst"
  }

  /** In `s + "." + t` with a dot-free `t`, the last dot is the one after `s`. */
  lemma ExtensionAfterLastDot(s: string, t: string)
    requires '.' !in t
    ensures LastIndexOf(s + "." + t, '.') == Some(|s|)
  {
    var u := s + "." + t;
    assert |u| == |s| + 1 + |t|;
    assert u[|s|] == '.';
    forall j | |s| < j < |u| ensures u[j] != '.' {
      DotFreeTail(s, t, j);
    }
    LastIndexOfAt(u, '.', |s|);
  }

  lemma DotFreeTail(s: string, t: string, j: int)
    requires '.' !in t
    requires |s| < j < |s| + 1 + |t|
    ensures (s + "." + t)[j] != '.'
  {
    var k := j - |s| - 1;
    assert (s + "." + t)[j] == t[k];
  }

  /** The outer extension and stem of `<stem>.zst`; an empty stem (the name ".zst") would have no extension. */
  lemma ArchiveParts(stem: string)
    requires stem != ""
    ensures Extension(stem + "." + "zst") == Some("zst")
    ensures FileStem(stem + "." + "zst") == stem
  {
    var name := stem + "." + "zst";
    ExtensionAfterLastDot(stem, "zst");
    assert name != "..";
    assert name[|stem| + 1..] == "zst";
    assert name[..|stem|] == stem;
  }

  /** The extension and stem of `<base>.<inner>` with a non-empty base and a dot-free, non-empty inner part. */
  lemma InnerParts(base: string, inner: string)
    requires base != "" && inner != "" && '.' !in inner
    ensures Extension(base + "." + inner) == Some(inner)
  {
    var stem := base + "." + inner;
    ExtensionAfterLastDot(base, inner);
    assert stem[|base| + 1..] == inner;
    assert stem != "..";
  }

  /** Every name of the fixture shape whose inner extension is a simfile format is eligible, with that extension lower-cased as its hint. */
  lemma ShapeIsEligible(path: string, base: string, inner: string)
    requires FixtureShape(FileName(path), base, inner)
    requires IsSimfileFormat(Lower(inner))
    ensures FormatHint(path) == Some(Lower(inner))
  {
    var stem := base + "." + inner;
    assert FileName(path) == stem + "." + "zst";
    ArchiveParts(stem);
    assert inner != "";
    InnerParts(base, inner);
  }

  /** An eligible file's inner stem has an extension: an empty hint is never a simfile format. */
  lemma EligibleStemHasExtension(path: string)
    ensures FormatHint(path).Some? ==> Extension(FileStem(FileName(path))).Some?
  {
  }

  /** A name with an extension is its non-empty stem, a dot and that dot-free extension. */
  lemma SplitAtExtension(name: string)
    requires Extension(name).Some?
    ensures FileStem(name) != "" && '.' !in Extension(name).value
    ensures name == FileStem(name) + "." + Extension(name).value
  {
  }

  /** Every eligible file name has the fixture shape, and its hint is its inner extension lower-cased. */
  lemma {:induction false} EligibleHasShape(path: string)
    ensures FormatHint(path).Some? ==>
            var stem := FileStem(FileName(path));
            Extension(stem).Some?
            && FixtureShape(FileName(path), FileStem(stem), Extension(stem).value)
            && FormatHint(path) == Some(Lower(Extension(stem).value))
  {
    if FormatHint(path).None? {
      return;
    }
    var name := FileName(path);
    var stem := FileStem(name);
    SplitAtExtension(name);
    EligibleStemHasExtension(path);
    SplitAtExtension(stem);
    ComposeShape(name, stem, FileStem(stem), Extension(stem).value);
  }

  /** `<stem>.zst` with `stem == <base>.<inner>` is `<base>.<inner>.zst`. */
  lemma ComposeShape(name: string, stem: string, base: string, inner: string)
    requires name == stem + "." + "zst" && stem == base + "." + inner
    requires base != "" && '.' !in inner
    ensures FixtureShape(name, base, inner)
  {
    assert base + "." + inner + ".zst" == (base + "." + inner) + "." + "zst";
  }

  /**
   * A fixture nested in pack and song directories is eligible, with the `ssc`
   * hint. The path is a parameter fixed by `requires` because the verifier
   * would otherwise unfold every function on the literal.
   */
  lemma NestedFixtureIsEligible(path: string)
    requires path == "PackA/Song1/file.ssc.zst"
    ensures FormatHint(path) == Some("ssc")
  {
    var name := "file.ssc.zst";
    assert path == "PackA/Song1/" + name;
    assert '/' !in name;
    assert path[11] == '/';
    LastIndexOfAt(path, '/', 11);
    assert FileName(path) == name;
    LowerFixesLowerCase("ssc");
    ShapeIsEligible(path, "file", "ssc");
  }

  /** One discovered fixture: its test name (the path relative to the root) and its format hint. */
  datatype Fixture = Fixture(name: string, formatHint: string)

  /** The fixture a walked file gives, if it is eligible. */
  predicate Describes(f: Fixture) {
    FormatHint(f.name) == Some(f.formatHint)
  }

  /** The fixtures a single walked file gives: itself when eligible, nothing otherwise. */
  function DiscoverOne(file: string): (r: seq<Fixture>)
    ensures forall t :: multiset(r)[t] == (if Describes(t) && t.name == file then 1 else 0)
  {
    match FormatHint(file)
    case None => []
    case Some(hint) => [Fixture(file, hint)]
  }

  lemma CountCons(files: seq<string>, x: string)
    requires |files| > 0
    ensures multiset(files)[x] == (if x == files[0] then 1 else 0) + multiset(files[1..])[x]
  {
    assert files == [files[0]] + files[1..];
    assert multiset(files) == multiset{files[0]} + multiset(files[1..]);
  }

  /**
   * The fixtures of a walk, in walk order: one for each eligible file, and
   * exactly as many copies of a fixture as the walk listed its file.
   */
  function Discover(files: seq<string>): (r: seq<Fixture>)
    ensures forall t :: multiset(r)[t] == (if Describes(t) then multiset(files)[t.name] else 0)
    decreases |files|
  {
    if |files| == 0 then []
    else
      var here := DiscoverOne(files[0]);
      var rest := Discover(files[1..]);
      assert forall t :: multiset(here + rest)[t] == (if Describes(t) then multiset(files)[t.name] else 0) by {
        forall t ensures multiset(here + rest)[t] == (if Describes(t) then multiset(files)[t.name] else 0) {
          assert multiset(here + rest)[t] == multiset(here)[t] + multiset(rest)[t];
          CountCons(files, t.name);
        }
      }
      here + rest
  }

  /** A fixture is discovered exactly when the walk listed its file and that file is eligible with its hint. */
  lemma DiscoveredIffEligible(files: seq<string>, t: Fixture)
    ensures t in Discover(files) <==> t.name in files && Describes(t)
  {
    assert t in Discover(files) <==> multiset(Discover(files))[t] > 0;
    assert t.name in files <==> multiset(files)[t.name] > 0;
  }
}

=== FILE: matcher.dfy ===
/**
 * The chart matcher: compares the recorded (golden) charts of one fixture
 * with the charts the engine computed for it.
 *
 * Both sides are restricted to the `dance-single` and `dance-double` step
 * types and grouped by (lower-cased step type, lower-cased difficulty),
 * keeping the order of charts within a group. Golden groups are visited in
 * ascending key order; the first group that is missing on the engine side or
 * whose hash list differs position by position decides the verdict.
 */
module Matcher {
  import opened Wrappers
  import opened Text

  /** Rust's `u32`, the type of a chart's meter. */
  type U32 = n: nat | n < 0x1_0000_0000

  /** A chart's identity and payload: its step type and difficulty as written, and what was recorded or computed for it. */
  datatype Tagged<V> = Tagged(stepType: string, difficulty: string, value: V)

  /** What a baseline records about one chart besides its identity. */
  datatype Expected = Expected(hash: string, meter: Option<U32>)

  /** One baseline entry (`GoldenChart` in the source). */
  type GoldenChart = Tagged<Expected>

  /** One chart the engine computed: its identity and its hash. */
  type ActualChart = Tagged<string>

  /** A group key: lower-cased step type and lower-cased difficulty. */
  type Key = (string, string)

  /** The outcome of comparing one fixture's charts. */
  datatype Verdict =
    | Ok
    | MissingChart(stepType: string, difficulty: string)
    | Mismatch(stepType: string, difficulty: string, actual: seq<string>, expected: seq<string>)

  /** The step types compared, after lower-casing. */
  predicate InScope(loweredStepType: string) {
    loweredStepType == "dance-single" || loweredStepType == "dance-double"
  }

  function KeyOf<V>(e: Tagged<V>): Key {
    (Lower(e.stepType), Lower(e.difficulty))
  }

  /** `e` is in scope and belongs to the group `k`. */
  predicate Selects<V>(e: Tagged<V>, k: Key) {
    InScope(Lower(e.stepType)) && KeyOf(e) == k
  }

  /**
   * Reference definition of a group: the payloads of the in-scope entries of
   * `s` whose key is `k`, in the order they appear in `s`.
   */
  function Select<V>(s: seq<Tagged<V>>, k: Key): seq<V>
    decreases |s|
  {
    if |s| == 0 then []
    else (if Selects(s[0], k) then [s[0].value] else []) + Select(s[1..], k)
  }

  lemma {:induction false} SelectAppend<V>(a: seq<Tagged<V>>, b: seq<Tagged<V>>, k: Key)
    ensures Select(a + b, k) == Select(a, k) + Select(b, k)
    decreases |a|
  {
    if |a| > 0 {
      assert (a + b)[0] == a[0];
      assert (a + b)[1..] == a[1..] + b;
      SelectAppend(a[1..], b, k);
    } else {
      assert a + b == b;
    }
  }

  /** Appending one entry extends its own group, and only that group, by its payload. */
  lemma SelectSnoc<V>(s: seq<Tagged<V>>)
    requires |s| > 0
    ensures forall k :: Select(s, k) == Select(s[..|s| - 1], k) + (if Selects(s[|s| - 1], k) then [s[|s| - 1].value] else [])
  {
    var init := s[..|s| - 1];
    var e := s[|s| - 1];
    assert s == init + [e];
    forall k ensures Select(s, k) == Select(init, k) + (if Selects(e, k) then [e.value] else []) {
      SelectAppend(init, [e], k);
      assert [e][1..] == [];
    }
  }

  /** Only in-scope keys have non-empty groups. */
  lemma {:induction false} SelectOutOfScope<V>(s: seq<Tagged<V>>, k: Key)
    requires !InScope(k.0)
    ensures Select(s, k) == []
    decreases |s|
  {
    if |s| > 0 {
      SelectOutOfScope(s[1..], k);
    }
  }

  /** A non-empty group holds an entry of `s` whose key it is. */
  lemma {:induction false} SelectWitness<V>(s: seq<Tagged<V>>, k: Key) returns (i: nat)
    requires Select(s, k) != []
    ensures i < |s| && Selects(s[i], k)
    decreases |s|
  {
    if Selects(s[0], k) {
      i := 0;
    } else {
      var j := SelectWitness(s[1..], k);
      i := j + 1;
    }
  }

  /** Every in-scope entry is pushed onto the group of its own key, and that group is in the grouping map. */
  lemma {:induction false} EntryInOwnGroup<V>(s: seq<Tagged<V>>, i: nat)
    requires i < |s| && InScope(Lower(s[i].stepType))
    ensures s[i].value in Select(s, KeyOf(s[i]))
    ensures KeyOf(s[i]) in GroupBy(s) && s[i].value in GroupBy(s)[KeyOf(s[i])]
    decreases |s|
  {
    if i > 0 {
      EntryInOwnGroup(s[1..], i - 1);
    }
  }

  /**
   * The grouping loop of the source: each in-scope entry is appended to the
   * list of its key, so every key maps to exactly its reference group.
   */
  function GroupBy<V>(s: seq<Tagged<V>>): (m: map<Key, seq<V>>)
    ensures forall k :: k in m <==> Select(s, k) != []
    ensures forall k :: k in m ==> m[k] == Select(s, k)
    decreases |s|
  {
    if |s| == 0 then map[]
    else
      var init := s[..|s| - 1];
      var e := s[|s| - 1];
      var m := GroupBy(init);
      SelectSnoc(s);
      if !InScope(Lower(e.stepType)) then m
      else
        var k := KeyOf(e);
        m[k := (if k in m then m[k] else []) + [e.value]]
  }

  /** The order of group keys: Rust's tuple order, step type first, then difficulty. */
  predicate KeyLess(a: Key, b: Key) {
    StrLess(a.0, b.0) || (a.0 == b.0 && StrLess(a.1, b.1))
  }

  lemma KeyLessIrreflexive(a: Key)
    ensures !KeyLess(a, a)
  {
    StrLessIrreflexive(a.0);
    StrLessIrreflexive(a.1);
  }

  lemma KeyLessTransitive(a: Key, b: Key, c: Key)
    requires KeyLess(a, b) && KeyLess(b, c)
    ensures KeyLess(a, c)
  {
    if StrLess(a.0, b.0) && StrLess(b.0, c.0) {
      StrLessTransitive(a.0, b.0, c.0);
    } else if a.0 == b.0 && b.0 == c.0 {
      StrLessTransitive(a.1, b.1, c.1);
    }
  }

  lemma KeyLessTotal(a: Key, b: Key)
    ensures a == b || KeyLess(a, b) || KeyLess(b, a)
  {
    StrLessTotal(a.0, b.0);
    StrLessTotal(a.1, b.1);
  }

  lemma KeyLessAsymmetric(a: Key, b: Key)
    requires KeyLess(a, b)
    ensures !KeyLess(b, a)
  {
    if KeyLess(b, a) {
      KeyLessTransitive(a, b, a);
      KeyLessIrreflexive(a);
    }
  }

  predicate StrictlySorted(ks: seq<Key>) {
    forall i, j :: 0 <= i < j < |ks| ==> KeyLess(ks[i], ks[j])
  }

  /** Adds `k` to an ascending list of distinct keys, keeping it ascending and distinct. */
  function InsertKey(k: Key, ks: seq<Key>): (r: seq<Key>)
    requires StrictlySorted(ks)
    ensures StrictlySorted(r)
    ensures forall x :: x in r <==> x in ks || x == k
    decreases |ks|
  {
    if |ks| == 0 then [k]
    else if k == ks[0] then ks
    else if KeyLess(k, ks[0]) then
      assert forall j :: 0 <= j < |ks| ==> KeyLess(k, ks[j]) by {
        forall j | 0 <= j < |ks| ensures KeyLess(k, ks[j]) {
          if j > 0 {
            KeyLessTransitive(k, ks[0], ks[j]);
          }
        }
      }
      [k] + ks
    else
      KeyLessTotal(k, ks[0]);
      var rest := InsertKey(k, ks[1..]);
      assert forall x :: x in rest ==> KeyLess(ks[0], x) by {
        forall x | x in rest ensures KeyLess(ks[0], x) {
          if x != k {
            var j :| 0 <= j < |ks[1..]| && ks[1..][j] == x;
            assert ks[j + 1] == x;
          }
        }
      }
      [ks[0]] + rest
  }

  /**
   * The keys of the non-empty groups of `s`, each once, in ascending order:
   * the order in which the source visits the golden groups after sorting them.
   */
  function SortedKeys<V>(s: seq<Tagged<V>>): (ks: seq<Key>)
    ensures StrictlySorted(ks)
    ensures forall k :: k in ks <==> Select(s, k) != []
    decreases |s|
  {
    if |s| == 0 then []
    else
      var init := s[..|s| - 1];
      var e := s[|s| - 1];
      var ks := SortedKeys(init);
      SelectSnoc(s);
      if InScope(Lower(e.stepType)) then InsertKey(KeyOf(e), ks) else ks
  }

  function Hashes(es: seq<Expected>): (r: seq<string>)
    ensures |r| == |es|
    ensures forall i :: 0 <= i < |es| ==> r[i] == es[i].hash
  {
    seq(|es|, i requires 0 <= i < |es| => es[i].hash)
  }

  /**
   * The source's group test: equal lengths and equal hashes at every index.
   * It holds exactly when the golden hash list equals the engine's.
   */
  function GroupMatches(expected: seq<Expected>, actual: seq<string>): (r: bool)
    ensures r <==> Hashes(expected) == actual
  {
    |expected| == |actual| && forall i :: 0 <= i < |expected| ==> expected[i].hash == actual[i]
  }

  /** How a printed comparison row names its chart: the golden meter, or the 1-based position. */
  datatype Label = Meter(meter: U32) | Position(ordinal: nat)

  /** One printed comparison row: label, golden hash, engine hash ("-" when absent) and whether it is ok. */
  datatype Row = Row(caption: Label, expected: Option<string>, actual: Option<string>, ok: bool)

  function At<T>(s: seq<T>, i: nat): Option<T> {
    if i < |s| then Some(s[i]) else None
  }

  /**
   * The rows printed for one group: one per index up to the longer list. A
   * row is ok only when a golden hash exists at that index and equals the
   * engine's hash there.
   */
  function Rows(expected: seq<Expected>, actual: seq<string>): (rows: seq<Row>)
    ensures |rows| == if |expected| < |actual| then |actual| else |expected|
    ensures forall i :: 0 <= i < |rows| ==> (rows[i].ok <==> i < |expected| && i < |actual| && expected[i].hash == actual[i])
    ensures forall i :: 0 <= i < |rows| && i < |expected| && expected[i].meter.Some? ==> rows[i].caption == Meter(expected[i].meter.value)
    ensures forall i :: 0 <= i < |rows| && !(i < |expected| && expected[i].meter.Some?) ==> rows[i].caption == Position(i + 1)
    ensures forall i :: 0 <= i < |rows| ==> rows[i].expected == (if i < |expected| then Some(expected[i].hash) else None)
    ensures forall i :: 0 <= i < |rows| ==> rows[i].actual == (if i < |actual| then Some(actual[i]) else None)
  {
    var n := if |expected| < |actual| then |actual| else |expected|;
    seq(n, i requires 0 <= i < n =>
      var e := At(Hashes(expected), i);
      var a := At(actual, i);
      var caption := if i < |expected| && expected[i].meter.Some? then Meter(expected[i].meter.value) else Position(i + 1);
      Row(caption, e, a, e.Some? && e == a))
  }

  /** The printed rows are all ok exactly when the group passes: display and verdict agree. */
  lemma {:induction false} RowsAgreeWithVerdict(expected: seq<Expected>, actual: seq<string>)
    ensures (forall i :: 0 <= i < |Rows(expected, actual)| ==> Rows(expected, actual)[i].ok)
            <==> GroupMatches(expected, actual)
  {
    var rows := Rows(expected, actual);
    if |expected| < |actual| {
      assert !rows[|expected|].ok;
    } else if |actual| < |expected| {
      assert !rows[|actual|].ok;
    }
  }

  /** The failure the source reports for a golden group that does not pass. */
  function GroupFailure(k: Key, expected: seq<Expected>, actual: map<Key, seq<string>>): Verdict {
    if k !in actual then MissingChart(k.0, k.1)
    else Mismatch(k.0, k.1, actual[k], Hashes(expected))
  }

  predicate EntryPasses(entry: (Key, seq<Expected>), actual: map<Key, seq<string>>) {
    entry.0 in actual && GroupMatches(entry.1, actual[entry.0])
  }

  /**
   * The comparison loop of the source over the sorted golden entries; each
   * visited key is removed from the engine's groups, as `HashMap::remove` does.
   */
  function Walk(entries: seq<(Key, seq<Expected>)>, actual: map<Key, seq<string>>): Verdict
    decreases |entries|
  {
    if |entries| == 0 then Ok
    else
      var (k, expected) := entries[0];
      if k !in actual then MissingChart(k.0, k.1)
      else if !GroupMatches(expected, actual[k]) then Mismatch(k.0, k.1, actual[k], Hashes(expected))
      else Walk(entries[1..], actual - {k})
  }

  predicate DistinctKeys(entries: seq<(Key, seq<Expected>)>) {
    forall i, j :: 0 <= i < j < |entries| ==> entries[i].0 != entries[j].0
  }

  /**
   * The loop stops at the first entry that does not pass and reports that
   * entry's failure, and returns `Ok` when every entry passes. Removing the
   * visited keys changes nothing, because the golden keys are distinct.
   */
  lemma {:induction false} WalkFindsFirstFailure(entries: seq<(Key, seq<Expected>)>, actual: map<Key, seq<string>>)
    requires DistinctKeys(entries)
    ensures Walk(entries, actual).Ok? <==> forall i :: 0 <= i < |entries| ==> EntryPasses(entries[i], actual)
    ensures !Walk(entries, actual).Ok? ==>
      exists i :: 0 <= i < |entries| && !EntryPasses(entries[i], actual)
        && (forall j :: 0 <= j < i ==> EntryPasses(entries[j], actual))
        && Walk(entries, actual) == GroupFailure(entries[i].0, entries[i].1, actual)
    decreases |entries|
  {
    if |entries| > 0 {
      var k := entries[0].0;
      if k in actual && GroupMatches(entries[0].1, actual[k]) {
        var rest := entries[1..];
        var smaller := actual - {k};
        WalkFindsFirstFailure(rest, smaller);
        assert forall i :: 0 <= i < |rest| ==> (EntryPasses(rest[i], smaller) <==> EntryPasses(entries[i + 1], actual)) by {
          forall i | 0 <= i < |rest| ensures EntryPasses(rest[i], smaller) <==> EntryPasses(entries[i + 1], actual) {
            assert rest[i] == entries[i + 1];
            assert entries[i + 1].0 != k;
          }
        }
        if !Walk(entries, actual).Ok? {
          var i :| 0 <= i < |rest| && !EntryPasses(rest[i], smaller)
            && (forall j :: 0 <= j < i ==> EntryPasses(rest[j], smaller))
            && Walk(rest, smaller) == GroupFailure(rest[i].0, rest[i].1, smaller);
          assert rest[i].0 != k;
          assert GroupFailure(rest[i].0, rest[i].1, smaller) == GroupFailure(entries[i + 1].0, entries[i + 1].1, actual);
          assert forall j :: 0 <= j < i + 1 ==> EntryPasses(entries[j], actual) by {
            forall j | 0 <= j < i + 1 ensures EntryPasses(entries[j], actual) {
              if j > 0 {
                assert EntryPasses(rest[j - 1], smaller);
              }
            }
          }
        }
      } else {
        assert !EntryPasses(entries[0], actual);
      }
    }
  }

  /** The golden hashes of group `k`, in baseline order. */
  function GoldenHashes(golden: seq<GoldenChart>, k: Key): seq<string> {
    Hashes(Select(golden, k))
  }

  /** The engine's hashes of group `k`, in output order. */
  function ActualHashes(actual: seq<ActualChart>, k: Key): seq<string> {
    Select(actual, k)
  }

  /** Group `k` passes: it has no golden charts, or the engine reproduced its hash list exactly. */
  predicate KeyPasses(golden: seq<GoldenChart>, actual: seq<ActualChart>, k: Key) {
    GoldenHashes(golden, k) == [] || GoldenHashes(golden, k) == ActualHashes(actual, k)
  }

  /** `k` is the smallest key whose group fails. */
  ghost predicate FirstFailure(golden: seq<GoldenChart>, actual: seq<ActualChart>, k: Key) {
    && !KeyPasses(golden, actual, k)
    && forall k' :: KeyLess(k', k) ==> KeyPasses(golden, actual, k')
  }

  /**
   * Step 6 of `check_file`. The verdict is `Ok` exactly when every golden
   * group is reproduced; otherwise it names the smallest failing golden group:
   * `MissingChart` when the engine produced no in-scope chart with that key,
   * and otherwise `Mismatch` carrying the engine's and the baseline's hash
   * lists for that key.
   */
  function CompareCharts(golden: seq<GoldenChart>, actual: seq<ActualChart>): (v: Verdict)
    ensures v.Ok? <==> forall k :: KeyPasses(golden, actual, k)
    ensures v.MissingChart? ==>
      var k := (v.stepType, v.difficulty);
      FirstFailure(golden, actual, k) && ActualHashes(actual, k) == []
    ensures v.Mismatch? ==>
      var k := (v.stepType, v.difficulty);
      && FirstFailure(golden, actual, k)
      && ActualHashes(actual, k) != []
      && v.actual == ActualHashes(actual, k)
      && v.expected == GoldenHashes(golden, k)
  {
    var goldenGroups := GroupBy(golden);
    var actualGroups := GroupBy(actual);
    var keys := SortedKeys(golden);
    var entries := seq(|keys|, i requires 0 <= i < |keys| => (keys[i], goldenGroups[keys[i]]));
    var v := Walk(entries, actualGroups);
    assert GoldenEntries(golden, keys, entries);
    assert DistinctKeys(entries) by {
      forall i, j | 0 <= i < j < |entries| ensures entries[i].0 != entries[j].0 {
        KeyLessIrreflexive(keys[i]);
      }
    }
    WalkFindsFirstFailure(entries, actualGroups);
    WalkOkIffAllPass(golden, actual, keys, entries, actualGroups, v);
    if v.Ok? then v
    else
      WalkFailureIsFirst(golden, actual, keys, entries, actualGroups, v);
      v
  }

  /** `keys` are the golden keys in ascending order and `entries` pairs each with its golden group. */
  ghost predicate GoldenEntries(golden: seq<GoldenChart>, keys: seq<Key>, entries: seq<(Key, seq<Expected>)>) {
    && StrictlySorted(keys)
    && (forall k :: k in keys <==> Select(golden, k) != [])
    && |entries| == |keys|
    && forall i :: 0 <= i < |keys| ==> entries[i] == (keys[i], Select(golden, keys[i]))
  }

  /** `groups` is the grouping of the engine's charts. */
  ghost predicate ActualGroups(actual: seq<ActualChart>, groups: map<Key, seq<string>>) {
    && (forall k :: k in groups <==> Select(actual, k) != [])
    && forall k :: k in groups ==> groups[k] == Select(actual, k)
  }

  /** A sorted golden entry passes exactly when its key passes. */
  lemma EntryPassesIffKeyPasses(golden: seq<GoldenChart>, actual: seq<ActualChart>, keys: seq<Key>,
                                entries: seq<(Key, seq<Expected>)>, groups: map<Key, seq<string>>, i: nat)
    requires GoldenEntries(golden, keys, entries) && ActualGroups(actual, groups) && i < |keys|
    ensures EntryPasses(entries[i], groups) <==> KeyPasses(golden, actual, keys[i])
  {
    assert keys[i] in keys;
    var k := keys[i];
    assert Select(golden, k) != [];
    assert GoldenHashes(golden, k) != [];
  }

  /** The walk over the sorted golden entries accepts exactly when every key passes. */
  lemma WalkOkIffAllPass(golden: seq<GoldenChart>, actual: seq<ActualChart>, keys: seq<Key>,
                         entries: seq<(Key, seq<Expected>)>, groups: map<Key, seq<string>>, v: Verdict)
    requires GoldenEntries(golden, keys, entries) && ActualGroups(actual, groups)
    requires v.Ok? <==> forall i :: 0 <= i < |entries| ==> EntryPasses(entries[i], groups)
    ensures v.Ok? <==> forall k :: KeyPasses(golden, actual, k)
  {
    if v.Ok? {
      forall k ensures KeyPasses(golden, actual, k) {
        if k in keys {
          var i :| 0 <= i < |keys| && keys[i] == k;
          EntryPassesIffKeyPasses(golden, actual, keys, entries, groups, i);
        }
      }
    } else {
      var i :| 0 <= i < |entries| && !EntryPasses(entries[i], groups);
      EntryPassesIffKeyPasses(golden, actual, keys, entries, groups, i);
    }
  }

  /** A failing walk reports the smallest failing golden key, with the engine's and the baseline's lists for it. */
  lemma WalkFailureIsFirst(golden: seq<GoldenChart>, actual: seq<ActualChart>, keys: seq<Key>,
                           entries: seq<(Key, seq<Expected>)>, groups: map<Key, seq<string>>, v: Verdict)
    requires GoldenEntries(golden, keys, entries) && ActualGroups(actual, groups)
    requires exists i ::
      && 0 <= i < |entries| && !EntryPasses(entries[i], groups)
      && (forall j :: 0 <= j < i ==> EntryPasses(entries[j], groups))
      && v == GroupFailure(entries[i].0, entries[i].1, groups)
    ensures v.MissingChart? ==>
      var k := (v.stepType, v.difficulty);
      FirstFailure(golden, actual, k) && ActualHashes(actual, k) == []
    ensures v.Mismatch? ==>
      var k := (v.stepType, v.difficulty);
      && FirstFailure(golden, actual, k)
      && ActualHashes(actual, k) != []
      && v.actual == ActualHashes(actual, k)
      && v.expected == GoldenHashes(golden, k)
  {
    var i :| 0 <= i < |entries| && !EntryPasses(entries[i], groups)
        && (forall j :: 0 <= j < i ==> EntryPasses(entries[j], groups))
        && v == GroupFailure(entries[i].0, entries[i].1, groups);
    var k := keys[i];
    EntryPassesIffKeyPasses(golden, actual, keys, entries, groups, i);
    forall k' | KeyLess(k', k) ensures KeyPasses(golden, actual, k') {
      if k' in keys {
        var j :| 0 <= j < |keys| && keys[j] == k';
        if j > i {
          KeyLessAsymmetric(k', k);
        } else if j == i {
          KeyLessIrreflexive(k);
        }
        EntryPassesIffKeyPasses(golden, actual, keys, entries, groups, j);
      }
    }
    assert (v.stepType, v.difficulty) == k;
  }
}

=== FILE: matcher_properties.dfy ===
/**
 * Consequences of the chart matcher's specification: what can and cannot
 * influence a verdict, and one worked example of positional comparison.
 */
module MatcherProperties {
  import opened Wrappers
  import opened Text
  import opened Matcher

  /**
   * The verdict depends only on the golden groups and, for golden keys, the
   * engine's groups. Out-of-scope entries, meters and engine-only groups
   * therefore never change it.
   */
  lemma VerdictDeterminedByGroups(g1: seq<GoldenChart>, a1: seq<ActualChart>,
                                   g2: seq<GoldenChart>, a2: seq<ActualChart>)
    requires forall k :: GoldenHashes(g1, k) == GoldenHashes(g2, k)
    requires forall k :: GoldenHashes(g1, k) != [] ==> ActualHashes(a1, k) == ActualHashes(a2, k)
    ensures CompareCharts(g1, a1) == CompareCharts(g2, a2)
  {
    CompareChartsMeetsSpec(g1, a1);
    CompareChartsMeetsSpec(g2, a2);
    SpecDeterminesVerdict(CompareCharts(g1, a1), g1, a1, CompareCharts(g2, a2), g2, a2);
  }

  /** The specification `CompareCharts` meets, as one predicate of a candidate verdict. */
  ghost predicate IsVerdict(v: Verdict, golden: seq<GoldenChart>, actual: seq<ActualChart>) {
    && (v.Ok? <==> forall k :: KeyPasses(golden, actual, k))
    && (v.MissingChart? ==>
         FirstFailure(golden, actual, (v.stepType, v.difficulty)) && ActualHashes(actual, (v.stepType, v.difficulty)) == [])
    && (v.Mismatch? ==>
         && FirstFailure(golden, actual, (v.stepType, v.difficulty))
         && ActualHashes(actual, (v.stepType, v.difficulty)) != []
         && v.actual == ActualHashes(actual, (v.stepType, v.difficulty))
         && v.expected == GoldenHashes(golden, (v.stepType, v.difficulty)))
  }

  lemma CompareChartsMeetsSpec(golden: seq<GoldenChart>, actual: seq<ActualChart>)
    ensures IsVerdict(CompareCharts(golden, actual), golden, actual)
  {
  }

  /** At most one verdict meets the specification for the same groups. */
  lemma SpecDeterminesVerdict(v1: Verdict, g1: seq<GoldenChart>, a1: seq<ActualChart>,
                              v2: Verdict, g2: seq<GoldenChart>, a2: seq<ActualChart>)
    requires IsVerdict(v1, g1, a1) && IsVerdict(v2, g2, a2)
    requires forall k :: GoldenHashes(g1, k) == GoldenHashes(g2, k)
    requires forall k :: GoldenHashes(g1, k) != [] ==> ActualHashes(a1, k) == ActualHashes(a2, k)
    ensures v1 == v2
  {
    forall k ensures KeyPasses(g1, a1, k) == KeyPasses(g2, a2, k) {
    }
    if !v1.Ok? {
      var k1 := (v1.stepType, v1.difficulty);
      var k2 := (v2.stepType, v2.difficulty);
      FirstFailureUnique(g1, a1, g2, a2, k1, k2);
      assert GoldenHashes(g1, k1) != [];
      assert ActualHashes(a1, k1) == ActualHashes(a2, k1);
    }
  }

  /** Under the same pass/fail judgement of every key, the smallest failing key is the same. */
  lemma FirstFailureUnique(g1: seq<GoldenChart>, a1: seq<ActualChart>,
                           g2: seq<GoldenChart>, a2: seq<ActualChart>, k1: Key, k2: Key)
    requires forall k :: KeyPasses(g1, a1, k) == KeyPasses(g2, a2, k)
    requires FirstFailure(g1, a1, k1) && FirstFailure(g2, a2, k2)
    ensures k1 == k2
  {
    KeyLessTotal(k1, k2);
  }

  /** The in-scope entries of `s`, in order. */
  function InScopeOnly<V>(s: seq<Tagged<V>>): (r: seq<Tagged<V>>)
    ensures forall i :: 0 <= i < |r| ==> InScope(Lower(r[i].stepType))
    ensures |r| <= |s|
    ensures forall k :: Select(r, k) == Select(s, k)
    decreases |s|
  {
    if |s| == 0 then []
    else
      var rest := InScopeOnly(s[1..]);
      if InScope(Lower(s[0].stepType)) then
        assert ([s[0]] + rest)[1..] == rest;
        [s[0]] + rest
      else rest
  }

  /** Entries outside `dance-single` and `dance-double`, on either side, never affect the verdict. */
  lemma OutOfScopeIgnored(golden: seq<GoldenChart>, actual: seq<ActualChart>)
    ensures CompareCharts(golden, actual) == CompareCharts(InScopeOnly(golden), InScopeOnly(actual))
  {
    VerdictDeterminedByGroups(golden, actual, InScopeOnly(golden), InScopeOnly(actual));
  }

  /** Engine charts whose group has no golden charts never affect the verdict. */
  lemma ExtraActualGroupsIgnored(golden: seq<GoldenChart>, actual: seq<ActualChart>, extra: seq<ActualChart>)
    requires forall i :: 0 <= i < |extra| ==> GoldenHashes(golden, KeyOf(extra[i])) == []
    ensures CompareCharts(golden, actual + extra) == CompareCharts(golden, actual)
  {
    forall k | GoldenHashes(golden, k) != []
      ensures ActualHashes(actual + extra, k) == ActualHashes(actual, k)
    {
      SelectAppend(actual, extra, k);
      if Select(extra, k) != [] {
        var i := SelectWitness(extra, k);
        assert false;
      }
    }
    VerdictDeterminedByGroups(golden, actual + extra, golden, actual);
  }

  /** Meters are display-only: changing them never changes the verdict. */
  lemma MetersIgnored(golden: seq<GoldenChart>, other: seq<GoldenChart>, actual: seq<ActualChart>)
    requires |other| == |golden|
    requires forall i :: 0 <= i < |golden| ==>
      other[i].stepType == golden[i].stepType && other[i].difficulty == golden[i].difficulty
      && other[i].value.hash == golden[i].value.hash
    ensures CompareCharts(golden, actual) == CompareCharts(other, actual)
  {
    forall k ensures GoldenHashes(golden, k) == GoldenHashes(other, k) {
      SameHashesSameGroups(golden, other, k);
    }
    VerdictDeterminedByGroups(golden, actual, other, actual);
  }

  lemma {:induction false} SameHashesSameGroups(golden: seq<GoldenChart>, other: seq<GoldenChart>, k: Key)
    requires |other| == |golden|
    requires forall i :: 0 <= i < |golden| ==>
      other[i].stepType == golden[i].stepType && other[i].difficulty == golden[i].difficulty
      && other[i].value.hash == golden[i].value.hash
    ensures GoldenHashes(golden, k) == GoldenHashes(other, k)
    decreases |golden|
  {
    if |golden| > 0 {
      SameHashesSameGroups(golden[1..], other[1..], k);
      var g := Select(golden, k);
      var o := Select(other, k);
      var gr := Select(golden[1..], k);
      var or := Select(other[1..], k);
      if Selects(golden[0], k) {
        assert g == [golden[0].value] + gr && o == [other[0].value] + or;
        assert Hashes(g) == [golden[0].value.hash] + Hashes(gr);
        assert Hashes(o) == [other[0].value.hash] + Hashes(or);
      }
    }
  }

  /** With no in-scope golden chart there is nothing to reproduce, and the verdict is `Ok`. */
  lemma NoGoldenGroupsIsOk(golden: seq<GoldenChart>, actual: seq<ActualChart>)
    requires forall i :: 0 <= i < |golden| ==> !InScope(Lower(golden[i].stepType))
    ensures CompareCharts(golden, actual) == Ok
  {
    forall k ensures GoldenHashes(golden, k) == [] {
      if Select(golden, k) != [] {
        var i := SelectWitness(golden, k);
      }
    }
  }

  /** A golden group the engine does not produce at all is reported as missing, never as a mismatch. */
  lemma MissingGroupNeverMismatch(golden: seq<GoldenChart>, actual: seq<ActualChart>)
    ensures var v := CompareCharts(golden, actual);
      v.Mismatch? ==> ActualHashes(actual, (v.stepType, v.difficulty)) != [] && v.actual != v.expected
  {
  }

  /** A failing verdict always names a `dance-single` or `dance-double` group. */
  lemma VerdictNamesInScopeGroup(golden: seq<GoldenChart>, actual: seq<ActualChart>)
    ensures var v := CompareCharts(golden, actual);
      !v.Ok? ==> InScope(v.stepType)
  {
    var v := CompareCharts(golden, actual);
    if !v.Ok? && !InScope(v.stepType) {
      SelectOutOfScope(golden, (v.stepType, v.difficulty));
      assert false;
    }
  }

  /** Comparison is positional: the same two edit charts in swapped order fail. */
  lemma ReorderedEditsMismatch()
    ensures CompareCharts(
      [Tagged("dance-single", "Edit", Expected("a", None)), Tagged("dance-single", "Edit", Expected("b", None))],
      [Tagged("dance-single", "edit", "b"), Tagged("dance-single", "edit", "a")])
      == Mismatch("dance-single", "edit", ["b", "a"], ["a", "b"])
  {
    var golden := [Tagged("dance-single", "Edit", Expected("a", None)), Tagged("dance-single", "Edit", Expected("b", None))];
    var actual := [Tagged("dance-single", "edit", "b"), Tagged("dance-single", "edit", "a")];
    var k := ("dance-single", "edit");
    LowerExamples();
    assert forall i :: 0 <= i < |golden| ==> Selects(golden[i], k);
    assert Select(golden, k) == [Expected("a", None), Expected("b", None)];
    assert Select(actual, k) == ["b", "a"];
    assert GoldenHashes(golden, k) == ["a", "b"];
    assert !KeyPasses(golden, actual, k);
    CompareChartsMeetsSpec(golden, actual);
    OnlyKeyIs(golden, actual, k);
  }

  lemma LowerExamples()
    ensures Lower("Edit") == "edit" && Lower("edit") == "edit"
    ensures Lower("Hard") == "hard" && Lower("hard") == "hard"
    ensures Lower("dance-single") == "dance-single" && Lower("dance-double") == "dance-double"
  {
    LowerFixesLowerCase("edit");
    LowerFixesLowerCase("hard");
    LowerFixesLowerCase("dance-single");
    LowerFixesLowerCase("dance-double");
    assert LowerChar('E') == 'e' && LowerChar('H') == 'h';
    assert Lower("Edit") == [LowerChar('E')] + "dit";
    assert Lower("Hard") == [LowerChar('H')] + "ard";
  }

  /**
   * With one golden group `k`, the verdict is decided by that group alone:
   * `Ok` when the engine reproduced it, `MissingChart` when the engine has no
   * such group, and otherwise `Mismatch` with both hash lists.
   */
  lemma SingleGroupVerdict(golden: seq<GoldenChart>, actual: seq<ActualChart>, k: Key)
    requires forall i :: 0 <= i < |golden| ==> Selects(golden[i], k)
    requires GoldenHashes(golden, k) != []
    ensures CompareCharts(golden, actual) ==
      if GoldenHashes(golden, k) == ActualHashes(actual, k) then Ok
      else if ActualHashes(actual, k) == [] then MissingChart(k.0, k.1)
      else Mismatch(k.0, k.1, ActualHashes(actual, k), GoldenHashes(golden, k))
  {
    CompareChartsMeetsSpec(golden, actual);
    var v := CompareCharts(golden, actual);
    forall k' | k' != k ensures GoldenHashes(golden, k') == [] {
      if Select(golden, k') != [] {
        var i := SelectWitness(golden, k');
      }
    }
    if GoldenHashes(golden, k) == ActualHashes(actual, k) {
      assert forall k' :: KeyPasses(golden, actual, k');
    } else {
      assert !KeyPasses(golden, actual, k);
      OnlyKeyIs(golden, actual, k);
    }
  }

  /** When every golden entry is in scope with key `k`, a failing verdict names `k`. */
  lemma OnlyKeyIs(golden: seq<GoldenChart>, actual: seq<ActualChart>, k: Key)
    requires forall i :: 0 <= i < |golden| ==> Selects(golden[i], k)
    ensures !CompareCharts(golden, actual).Ok? ==>
      (CompareCharts(golden, actual).stepType, CompareCharts(golden, actual).difficulty) == k
  {
    var v := CompareCharts(golden, actual);
    if !v.Ok? {
      var k' := (v.stepType, v.difficulty);
      assert Select(golden, k') != [];
      var i := SelectWitness(golden, k');
    }
  }
}

=== FILE: pipeline.dfy ===
/**
 * One fixture's check (`check_file`): read and decompress the fixture, look
 * its baseline up by digest, run the engine, and compare the charts.
 *
 * File reads, zstd, MD5, JSON and the engine are not modelled; what each of
 * them returned for this fixture is an input. The first stage that fails
 * decides the error, and a missing baseline is a hard failure.
 */
module Pipeline {
  import opened BaselineStore
  import opened Matcher

  /** What reading and decompressing the fixture archive gave: a failure, or the MD5 digest of the raw bytes. */
  datatype FixtureContent =
    | FixtureUnreadable
    | FixtureCorrupt
    | Raw(digest: Digest)

  /** What the baseline store holds at a location: a file that cannot be read, decompressed or parsed, or the golden charts. */
  datatype StoredBaseline =
    | StoredUnreadable
    | StoredCorrupt
    | StoredMalformed
    | Golden(charts: seq<GoldenChart>)

  /** What the engine returned for the raw bytes and format hint. */
  datatype EngineOutput = EngineRejected | Computed(charts: seq<ActualChart>)

  /** Why a fixture fails, one case per early return of `check_file`. */
  datatype CheckError =
    | ReadFailed
    | DecompressFailed
    | MissingBaseline(digest: string, location: BaselineLocation)
    | BaselineReadFailed
    | BaselineDecompressFailed
    | BaselineParseFailed
    | EngineFailed
    | ChartsDiffer(verdict: Verdict)

  datatype CheckResult = Pass | Fail(error: CheckError)

  /** The baseline was found and parsed, and the engine produced charts. */
  predicate Comparable(fixture: FixtureContent, store: map<BaselineLocation, StoredBaseline>, engine: EngineOutput) {
    && fixture.Raw?
    && Locate(fixture.digest) in store
    && store[Locate(fixture.digest)].Golden?
    && engine.Computed?
  }

  /**
   * `check_file`. A fixture passes exactly when every stage succeeds and the
   * charts match. A baseline absent from the store fails the fixture whatever
   * the engine would have said, and a chart failure carries the matcher's
   * verdict for the stored and computed charts.
   */
  function CheckFile(fixture: FixtureContent, store: map<BaselineLocation, StoredBaseline>, engine: EngineOutput): (r: CheckResult)
    ensures r.Pass? <==>
      Comparable(fixture, store, engine)
      && CompareCharts(store[Locate(fixture.digest)].charts, engine.charts) == Ok
    ensures fixture.Raw? && Locate(fixture.digest) !in store ==>
      r == Fail(MissingBaseline(fixture.digest, Locate(fixture.digest)))
    ensures r.Fail? && r.error.ChartsDiffer? ==>
      Comparable(fixture, store, engine)
      && r.error.verdict == CompareCharts(store[Locate(fixture.digest)].charts, engine.charts)
      && !r.error.verdict.Ok?
    ensures Comparable(fixture, store, engine) && !CompareCharts(store[Locate(fixture.digest)].charts, engine.charts).Ok? ==>
      r == Fail(ChartsDiffer(CompareCharts(store[Locate(fixture.digest)].charts, engine.charts)))
    ensures fixture.FixtureUnreadable? ==> r == Fail(ReadFailed)
    ensures fixture.FixtureCorrupt? ==> r == Fail(DecompressFailed)
    ensures fixture.Raw? && Locate(fixture.digest) in store ==>
      && (store[Locate(fixture.digest)].StoredUnreadable? ==> r == Fail(BaselineReadFailed))
      && (store[Locate(fixture.digest)].StoredCorrupt? ==> r == Fail(BaselineDecompressFailed))
      && (store[Locate(fixture.digest)].StoredMalformed? ==> r == Fail(BaselineParseFailed))
    ensures r == Fail(EngineFailed) <==>
      fixture.Raw? && Locate(fixture.digest) in store && store[Locate(fixture.digest)].Golden? && engine.EngineRejected?
  {
    match fixture
    case FixtureUnreadable => Fail(ReadFailed)
    case FixtureCorrupt => Fail(DecompressFailed)
    case Raw(digest) =>
      var location := Locate(digest);
      if location !in store then Fail(MissingBaseline(digest, location))
      else match store[location]
        case StoredUnreadable => Fail(BaselineReadFailed)
        case StoredCorrupt => Fail(BaselineDecompressFailed)
        case StoredMalformed => Fail(BaselineParseFailed)
        case Golden(golden) =>
          match engine
          case EngineRejected => Fail(EngineFailed)
          case Computed(actual) =>
            var verdict := CompareCharts(golden, actual);
            if verdict.Ok? then Pass else Fail(ChartsDiffer(verdict))
  }
}

=== FILE: runner.dfy ===
/**
 * The test runner of `main`: order the discovered fixtures by name, apply the
 * libtest-style filters, then either list the survivors or check them one
 * after another, tally the results and choose the exit code.
 */
module Runner {
  import opened Wrappers
  import opened Text
  import opened Fixtures
  import opened Pipeline

  /** The parsed command-line flags: filter, `--exact`, `--skip` (repeatable), `--ignored` and `--list`. */
  datatype Args = Args(filter: Option<string>, exact: bool, skip: seq<string>, ignored: bool, list: bool)

  predicate SortedByName(s: seq<Fixture>) {
    forall i, j :: 0 <= i < j < |s| ==> StrLe(s[i].name, s[j].name)
  }

  /** Inserts `t` before the first fixture whose name is not smaller. */
  function InsertByName(t: Fixture, s: seq<Fixture>): (r: seq<Fixture>)
    requires SortedByName(s)
    ensures SortedByName(r)
    ensures multiset(r) == multiset(s) + multiset{t}
    decreases |s|
  {
    if |s| == 0 then [t]
    else if StrLe(t.name, s[0].name) then
      assert forall j :: 0 <= j < |s| ==> StrLe(t.name, s[j].name) by {
        forall j | 0 < j < |s| ensures StrLe(t.name, s[j].name) {
          if t.name != s[0].name && s[0].name != s[j].name {
            StrLessTransitive(t.name, s[0].name, s[j].name);
          }
        }
      }
      [t] + s
    else
      StrLessTotal(t.name, s[0].name);
      var rest := InsertByName(t, s[1..]);
      assert s == [s[0]] + s[1..];
      assert forall x :: x in rest ==> StrLe(s[0].name, x.name) by {
        forall x | x in rest ensures StrLe(s[0].name, x.name) {
          if x != t {
            assert x in multiset(rest);
            assert x in multiset(s[1..]);
            var j :| 0 <= j < |s[1..]| && s[1..][j] == x;
            assert s[j + 1] == x;
          }
        }
      }
      [s[0]] + rest
  }

  /** `tests.sort_by(|a, b| a.name.cmp(&b.name))`: the same fixtures, ordered by name. */
  function SortByName(s: seq<Fixture>): (r: seq<Fixture>)
    ensures SortedByName(r)
    ensures multiset(r) == multiset(s)
    decreases |s|
  {
    if |s| == 0 then []
    else
      assert s == [s[0]] + s[1..];
      InsertByName(s[0], SortByName(s[1..]))
  }

  /** The positional filter: none keeps everything; `--exact` keeps only the equal name; otherwise the name must contain it. */
  predicate MatchesFilter(name: string, args: Args) {
    match args.filter
    case None => true
    case Some(filter) => if args.exact then name == filter else Contains(name, filter)
  }

  /** No `--skip` string occurs in the name. */
  predicate NotSkipped(name: string, skip: seq<string>) {
    forall s :: s in skip ==> !Contains(name, s)
  }

  predicate Keep(name: string, args: Args) {
    MatchesFilter(name, args) && NotSkipped(name, args.skip)
  }

  /** `a` is `b` with some elements left out, the rest in their order. */
  predicate IsSubsequence<T(==)>(a: seq<T>, b: seq<T>)
    decreases |b|
  {
    |a| == 0 || (|b| > 0 && ((a[0] == b[0] && IsSubsequence(a[1..], b[1..])) || IsSubsequence(a, b[1..])))
  }

  /** A subsequence of a name-ordered list is name-ordered. */
  lemma {:induction false} SubsequenceKeepsOrder(a: seq<Fixture>, b: seq<Fixture>)
    requires IsSubsequence(a, b) && SortedByName(b)
    ensures SortedByName(a)
    ensures forall x :: x in a ==> x in b
    decreases |b|
  {
    if |a| > 0 {
      if a[0] == b[0] && IsSubsequence(a[1..], b[1..]) {
        SubsequenceKeepsOrder(a[1..], b[1..]);
        forall i, j | 0 <= i < j < |a| ensures StrLe(a[i].name, a[j].name) {
          if i == 0 {
            assert a[j] in a[1..];
            var k :| 0 <= k < |b[1..]| && b[1..][k] == a[j];
            assert b[k + 1] == a[j];
          } else {
            assert a[i] == a[1..][i - 1] && a[j] == a[1..][j - 1];
          }
        }
        forall x | x in a ensures x in b {
          if x != a[0] {
            assert x in a[1..];
          }
        }
      } else {
        SubsequenceKeepsOrder(a, b[1..]);
      }
    }
  }

  /** The two `filter` calls of `main`: the fixtures whose names pass the filter and every skip, in order. */
  function FilterKept(s: seq<Fixture>, args: Args): (r: seq<Fixture>)
    ensures IsSubsequence(r, s)
    ensures forall t :: multiset(r)[t] == if Keep(t.name, args) then multiset(s)[t] else 0
    decreases |s|
  {
    if |s| == 0 then []
    else
      var rest := FilterKept(s[1..], args);
      assert s == [s[0]] + s[1..];
      if Keep(s[0].name, args) then
        assert ([s[0]] + rest)[1..] == rest;
        [s[0]] + rest
      else rest
  }

  /**
   * The fixtures a run uses: sorted by name, then filtered, then emptied by
   * `--ignored` (the harness declares no ignored tests).
   */
  function SelectTests(tests: seq<Fixture>, args: Args): (r: seq<Fixture>)
    ensures SortedByName(r)
    ensures IsSubsequence(r, SortByName(tests))
    ensures args.ignored ==> r == []
    ensures !args.ignored ==> forall t :: multiset(r)[t] == if Keep(t.name, args) then multiset(tests)[t] else 0
  {
    var sorted := SortByName(tests);
    var kept := FilterKept(sorted, args);
    SubsequenceKeepsOrder(kept, sorted);
    if args.ignored then [] else kept
  }

  /** A fixture is selected exactly when it was discovered, passes the filters and `--ignored` is off. */
  lemma SelectedIff(tests: seq<Fixture>, args: Args, t: Fixture)
    ensures t in SelectTests(tests, args) <==> !args.ignored && t in tests && Keep(t.name, args)
  {
    var r := SelectTests(tests, args);
    if !args.ignored {
      assert t in r <==> multiset(r)[t] > 0;
      assert t in tests <==> multiset(tests)[t] > 0;
    }
  }

  /** The first fixture of a name-ordered list has the least name in it. */
  lemma FirstIsLeast(a: seq<Fixture>, x: Fixture)
    requires SortedByName(a) && x in a
    ensures StrLe(a[0].name, x.name)
  {
    var i :| 0 <= i < |a| && a[i] == x;
    if i > 0 {
      assert StrLe(a[0].name, a[i].name);
    }
  }

  lemma MultisetTail(a: seq<Fixture>, b: seq<Fixture>)
    requires |a| > 0 && |b| > 0 && a[0] == b[0] && multiset(a) == multiset(b)
    ensures multiset(a[1..]) == multiset(b[1..])
  {
    assert a == [a[0]] + a[1..] && b == [b[0]] + b[1..];
    assert multiset(a) == multiset{a[0]} + multiset(a[1..]);
    assert multiset(b) == multiset{b[0]} + multiset(b[1..]);
    assert multiset(a[1..]) == multiset(a) - multiset{a[0]};
    assert multiset(b[1..]) == multiset(b) - multiset{b[0]};
  }

  /** Two name-ordered lists of the same fixtures, in which a name determines its fixture, are equal. */
  lemma {:induction false} SortedPermutationsEqual(a: seq<Fixture>, b: seq<Fixture>)
    requires SortedByName(a) && SortedByName(b)
    requires multiset(a) == multiset(b)
    requires forall x, y :: x in a && y in a && x.name == y.name ==> x == y
    ensures a == b
    decreases |a|
  {
    assert |a| == |multiset(a)| == |multiset(b)| == |b|;
    if |a| > 0 {
      assert a[0] in multiset(b) && b[0] in multiset(a);
      FirstIsLeast(b, a[0]);
      FirstIsLeast(a, b[0]);
      if a[0].name != b[0].name {
        StrLessAsymmetric(a[0].name, b[0].name);
      }
      assert a[0] == b[0];
      MultisetTail(a, b);
      forall x, y | x in a[1..] && y in a[1..] && x.name == y.name ensures x == y {
        assert x in a && y in a;
      }
      assert SortedByName(a[1..]) && SortedByName(b[1..]) by {
        forall i, j | 0 <= i < j < |a| - 1 ensures StrLe(a[1..][i].name, a[1..][j].name) && StrLe(b[1..][i].name, b[1..][j].name) {
          assert a[1..][i] == a[i + 1] && a[1..][j] == a[j + 1];
          assert b[1..][i] == b[i + 1] && b[1..][j] == b[j + 1];
        }
      }
      SortedPermutationsEqual(a[1..], b[1..]);
      assert a == [a[0]] + a[1..] && b == [b[0]] + b[1..];
    }
  }

  /**
   * Walk order never matters: two walks that list the same files, in any
   * order, select the same fixtures in the same order.
   */
  lemma SelectionIgnoresWalkOrder(files1: seq<string>, files2: seq<string>, args: Args)
    requires multiset(files1) == multiset(files2)
    ensures SelectTests(Discover(files1), args) == SelectTests(Discover(files2), args)
  {
    var d1 := Discover(files1);
    var d2 := Discover(files2);
    assert multiset(d1) == multiset(d2) by {
      forall t ensures multiset(d1)[t] == multiset(d2)[t] {
      }
    }
    var s1 := SortByName(d1);
    var s2 := SortByName(d2);
    forall x, y | x in s1 && y in s1 && x.name == y.name ensures x == y {
      assert x in multiset(d1) && y in multiset(d1);
      assert Describes(x) && Describes(y);
    }
    SortedPermutationsEqual(s1, s2);
  }

  /** One failed fixture: its name and why it failed. */
  datatype Failure = Failure(name: string, error: CheckError)

  /** The tally of a run. */
  datatype Summary = Summary(passed: nat, failed: nat, failures: seq<Failure>)

  /** Reference list of the failures of a run: one per failing fixture, in run order. */
  function FailuresOf(tests: seq<Fixture>, check: Fixture -> CheckResult): (r: seq<Failure>)
    ensures |r| <= |tests|
    ensures r == [] <==> forall i :: 0 <= i < |tests| ==> check(tests[i]).Pass?
    ensures forall f :: f in r ==> exists i :: 0 <= i < |tests| && tests[i].name == f.name && check(tests[i]) == Fail(f.error)
    ensures forall i :: 0 <= i < |tests| && check(tests[i]).Fail? ==> Failure(tests[i].name, check(tests[i]).error) in r
    decreases |tests|
  {
    if |tests| == 0 then []
    else
      var init := tests[..|tests| - 1];
      var t := tests[|tests| - 1];
      var earlier := FailuresOf(init, check);
      assert forall i :: 0 <= i < |init| ==> init[i] == tests[i];
      var r := if check(t).Pass? then earlier else earlier + [Failure(t.name, check(t).error)];
      assert forall f :: f in earlier ==> f in r;
      assert forall i :: 0 <= i < |tests| && check(tests[i]).Fail? ==> Failure(tests[i].name, check(tests[i]).error) in r by {
        forall i | 0 <= i < |tests| && check(tests[i]).Fail?
          ensures Failure(tests[i].name, check(tests[i]).error) in r
        {
          if i < |init| {
            assert init[i] == tests[i];
          }
        }
      }
      r
  }

  /** The positions of the fixtures that fail their check. */
  function FailingIndices(tests: seq<Fixture>, check: Fixture -> CheckResult): set<nat> {
    set i: nat | i < |tests| && check(tests[i]).Fail?
  }

  /** Extending a run by one fixture adds its position exactly when it fails. */
  lemma FailingIndicesSnoc(tests: seq<Fixture>, check: Fixture -> CheckResult)
    requires |tests| > 0
    ensures var n := |tests| - 1;
      FailingIndices(tests, check) ==
        FailingIndices(tests[..n], check) + (if check(tests[n]).Fail? then {n} else {})
    ensures |tests| - 1 !in FailingIndices(tests[..|tests| - 1], check)
  {
    var n := |tests| - 1;
    assert forall i :: 0 <= i < n ==> tests[..n][i] == tests[i];
  }

  /** One failure is recorded per failing fixture: the list is as long as the set of failing positions. */
  lemma {:induction false} FailureCount(tests: seq<Fixture>, check: Fixture -> CheckResult)
    ensures |FailuresOf(tests, check)| == |FailingIndices(tests, check)|
    decreases |tests|
  {
    if |tests| == 0 {
      assert FailingIndices(tests, check) == {};
    } else {
      FailureCount(tests[..|tests| - 1], check);
      FailingIndicesSnoc(tests, check);
    }
  }

  /**
   * The serial loop of `main`: each fixture is checked in order, counted as
   * passed or failed, and each failure is recorded with its name.
   */
  method RunTests(tests: seq<Fixture>, check: Fixture -> CheckResult) returns (summary: Summary)
    ensures summary.passed + summary.failed == |tests|
    ensures summary.failed == |summary.failures|
    ensures summary.failures == FailuresOf(tests, check)
    ensures summary.failed == |FailingIndices(tests, check)|
    ensures summary.failed == 0 <==> forall i :: 0 <= i < |tests| ==> check(tests[i]).Pass?
  {
    var passed := 0;
    var failed := 0;
    var failures: seq<Failure> := [];
    for i := 0 to |tests|
      invariant passed + failed == i
      invariant failed == |failures|
      invariant failures == FailuresOf(tests[..i], check)
    {
      assert tests[..i + 1][..i] == tests[..i];
      match check(tests[i])
      case Pass =>
        passed := passed + 1;
      case Fail(error) =>
        failures := failures + [Failure(tests[i].name, error)];
        failed := failed + 1;
    }
    assert tests[..|tests|] == tests;
    FailureCount(tests, check);
    summary := Summary(passed, failed, failures);
  }

  /** How `main` ends. */
  datatype Outcome =
    | NoPacks                      // the fixture root does not exist
    | Listed(names: seq<string>)   // `--list`: the selected names, nothing run
    | Ran(summary: Summary)

  function Names(tests: seq<Fixture>): (r: seq<string>)
    ensures |r| == |tests|
    ensures forall i :: 0 <= i < |tests| ==> r[i] == tests[i].name
  {
    seq(|tests|, i requires 0 <= i < |tests| => tests[i].name)
  }

  /**
   * `main`, from the walked files to the exit code. The process exits with
   * 101 exactly when a selected fixture failed its check, and 0 otherwise.
   */
  method Harness(args: Args, packsPresent: bool, files: seq<string>, check: Fixture -> CheckResult)
    returns (outcome: Outcome, exitCode: int)
    ensures !packsPresent ==> outcome == NoPacks
    ensures packsPresent && args.list ==> outcome == Listed(Names(SelectTests(Discover(files), args)))
    ensures packsPresent && !args.list ==>
      outcome.Ran? && outcome.summary.passed + outcome.summary.failed == |SelectTests(Discover(files), args)|
      && outcome.summary.failures == FailuresOf(SelectTests(Discover(files), args), check)
    ensures exitCode == 101 <==>
      packsPresent && !args.list && exists t :: t in SelectTests(Discover(files), args) && check(t).Fail?
    ensures exitCode == 0 || exitCode == 101
  {
    if !packsPresent {
      return NoPacks, 0;
    }
    var tests := SelectTests(Discover(files), args);
    if args.list {
      return Listed(Names(tests)), 0;
    }
    var summary := RunTests(tests, check);
    outcome := Ran(summary);
    exitCode := if summary.failed == 0 then 0 else 101;
  }
}

=== FILE: scenarios.dfy ===
/**
 * Worked examples of one fixture's check: a baseline with a single Hard
 * dance-single chart, stored under the digest of the fixture's raw bytes.
 *
 * Some examples take their chart lists as parameters fixed by `requires`
 * instead of writing them inline. With literal arguments the verifier unfolds
 * `CheckFile` and `CompareCharts` on the concrete lists, which is far more
 * costly than reasoning from their contracts.
 */
module Scenarios {
  import opened Wrappers
  import opened Text
  import opened BaselineStore
  import opened Matcher
  import opened MatcherProperties
  import opened Pipeline

  const ScenarioDigest: Digest := "d41d8cd98f00b204e9800998ecf8427e"

  const HardSingle: Key := ("dance-single", "hard")

  /** The baseline store holding the one recorded chart under the scenario digest. */
  function ScenarioStore(): map<BaselineLocation, StoredBaseline> {
    map[Locate(ScenarioDigest) := Golden([Tagged("dance-single", "Hard", Expected("abc123", None))])]
  }

  /** The baseline of the scenario digest lives in shard `d4`. */
  lemma ScenarioLocation()
    ensures Locate(ScenarioDigest) == BaselineLocation("d4", "d41d8cd98f00b204e9800998ecf8427e.json.zst")
  {
  }

  /** The single golden group is Hard dance-single, with the one recorded hash. */
  lemma ScenarioGolden(golden: seq<GoldenChart>)
    requires golden == [Tagged("dance-single", "Hard", Expected("abc123", None))]
    ensures forall i :: 0 <= i < |golden| ==> Selects(golden[i], HardSingle)
    ensures GoldenHashes(golden, HardSingle) == ["abc123"]
  {
    LowerExamples();
    assert Selects(golden[0], HardSingle);
    assert Select(golden, HardSingle) == [Expected("abc123", None)];
  }

  /** The engine reproduces the recorded hash: the fixture passes. */
  lemma ScenarioPass()
    ensures CheckFile(Raw(ScenarioDigest), ScenarioStore(), Computed([Tagged("dance-single", "hard", "abc123")])) == Pass
  {
    var golden := [Tagged("dance-single", "Hard", Expected("abc123", None))];
    var actual := [Tagged("dance-single", "hard", "abc123")];
    ScenarioGolden(golden);
    LowerExamples();
    assert Select(actual, HardSingle) == ["abc123"];
    SingleGroupVerdict(golden, actual, HardSingle);
  }

  /** The charts disagree on the hash: a mismatch naming both hash lists. */
  lemma MismatchVerdict(golden: seq<GoldenChart>, actual: seq<ActualChart>)
    requires golden == [Tagged("dance-single", "Hard", Expected("abc123", None))]
    requires actual == [Tagged("dance-single", "hard", "xyz999")]
    ensures CompareCharts(golden, actual) == Mismatch("dance-single", "hard", ["xyz999"], ["abc123"])
  {
    ScenarioGolden(golden);
    LowerExamples();
    assert Select(actual, HardSingle) == ["xyz999"];
    SingleGroupVerdict(golden, actual, HardSingle);
  }

  /** The engine computes another hash: the fixture fails with that mismatch. */
  lemma ScenarioMismatch(actual: seq<ActualChart>)
    requires actual == [Tagged("dance-single", "hard", "xyz999")]
    ensures CheckFile(Raw(ScenarioDigest), ScenarioStore(), Computed(actual))
      == Fail(ChartsDiffer(Mismatch("dance-single", "hard", ["xyz999"], ["abc123"])))
  {
    MismatchVerdict(ScenarioStore()[Locate(ScenarioDigest)].charts, actual);
  }

  /** Only a dance-double chart was computed: the recorded group is missing. */
  lemma MissingChartVerdict(golden: seq<GoldenChart>, actual: seq<ActualChart>)
    requires golden == [Tagged("dance-single", "Hard", Expected("abc123", None))]
    requires actual == [Tagged("dance-double", "hard", "abc123")]
    ensures CompareCharts(golden, actual) == MissingChart("dance-single", "hard")
  {
    ScenarioGolden(golden);
    LowerExamples();
    assert !Selects(actual[0], HardSingle);
    assert Select(actual, HardSingle) == [];
    SingleGroupVerdict(golden, actual, HardSingle);
  }

  /** The engine produces only a dance-double chart: the fixture fails with the missing chart. */
  lemma ScenarioMissingChart(actual: seq<ActualChart>)
    requires actual == [Tagged("dance-double", "hard", "abc123")]
    ensures CheckFile(Raw(ScenarioDigest), ScenarioStore(), Computed(actual))
      == Fail(ChartsDiffer(MissingChart("dance-single", "hard")))
  {
    MissingChartVerdict(ScenarioStore()[Locate(ScenarioDigest)].charts, actual);
  }

  /** Nothing is stored under the digest: the fixture fails, even though the engine would match. */
  lemma ScenarioMissingBaseline()
    ensures CheckFile(Raw(ScenarioDigest), map[], Computed([Tagged("dance-single", "hard", "abc123")]))
      == Fail(MissingBaseline(ScenarioDigest, BaselineLocation("d4", "d41d8cd98f00b204e9800998ecf8427e.json.zst")))
  {
    ScenarioLocation();
  }
}

=== FILE: text.dfy ===
/**
 * The string operations the harness relies on: ASCII lower-casing, Rust's
 * byte-wise ordering of `String`, `str::contains`, and finding the last
 * occurrence of a character.
 */
module Text {
  import opened Wrappers

  predicate IsAsciiUpper(c: char) {
    'A' <= c <= 'Z'
  }

  /** Rust's `char::to_ascii_lowercase`. */
  function LowerChar(c: char): (r: char)
    ensures !IsAsciiUpper(r)
    ensures !IsAsciiUpper(c) ==> r == c
    ensures IsAsciiUpper(c) ==> r as int == c as int + 32
  {
    if IsAsciiUpper(c) then (c as int + 32) as char else c
  }

  /** Rust's `str::to_ascii_lowercase`: every ASCII capital is replaced by its small letter. */
  function Lower(s: string): (r: string)
    ensures |r| == |s|
    ensures forall i :: 0 <= i < |r| ==> !IsAsciiUpper(r[i])
    ensures forall i :: 0 <= i < |s| && !IsAsciiUpper(s[i]) ==> r[i] == s[i]
    ensures forall i :: 0 <= i < |s| && IsAsciiUpper(s[i]) ==> r[i] as int == s[i] as int + 32
  {
    seq(|s|, i requires 0 <= i < |s| => LowerChar(s[i]))
  }

  /** A string with no ASCII capital is its own lower-case form. */
  lemma LowerFixesLowerCase(s: string)
    requires forall i :: 0 <= i < |s| ==> !IsAsciiUpper(s[i])
    ensures Lower(s) == s
  {
  }

  /**
   * Rust's `Ord` for `str`: lexicographic comparison of the UTF-8 bytes, which
   * orders valid strings the same way as comparing their code points one by one.
   */
  predicate StrLess(a: string, b: string)
    decreases |a|
  {
    if |a| == 0 then |b| > 0
    else if |b| == 0 then false
    else if a[0] != b[0] then a[0] < b[0]
    else StrLess(a[1..], b[1..])
  }

  predicate StrLe(a: string, b: string) {
    a == b || StrLess(a, b)
  }

  lemma {:induction false} StrLessIrreflexive(a: string)
    ensures !StrLess(a, a)
    decreases |a|
  {
    if |a| > 0 {
      StrLessIrreflexive(a[1..]);
    }
  }

  lemma {:induction false} StrLessTransitive(a: string, b: string, c: string)
    requires StrLess(a, b) && StrLess(b, c)
    ensures StrLess(a, c)
    decreases |a|
  {
    if |a| > 0 && a[0] == b[0] && b[0] == c[0] {
      StrLessTransitive(a[1..], b[1..], c[1..]);
    }
  }

  lemma {:induction false} StrLessTotal(a: string, b: string)
    ensures a == b || StrLess(a, b) || StrLess(b, a)
    decreases |a|
  {
    if |a| > 0 && |b| > 0 && a[0] == b[0] {
      StrLessTotal(a[1..], b[1..]);
      assert a == [a[0]] + a[1..] && b == [b[0]] + b[1..];
    }
  }

  lemma StrLessAsymmetric(a: string, b: string)
    requires StrLess(a, b)
    ensures !StrLess(b, a)
  {
    if StrLess(b, a) {
      StrLessTransitive(a, b, a);
      StrLessIrreflexive(a);
    }
  }

  /** `needle` occurs in `hay` starting at index `i`. */
  predicate OccursAt(hay: string, needle: string, i: nat) {
    i + |needle| <= |hay| && hay[i..i + |needle|] == needle
  }

  lemma OccursAtShift(hay: string, needle: string, i: nat)
    requires |hay| > 0
    ensures OccursAt(hay[1..], needle, i) <==> OccursAt(hay, needle, i + 1)
  {
    if i + 1 + |needle| <= |hay| {
      assert hay[1..][i..i + |needle|] == hay[i + 1..i + 1 + |needle|];
    }
  }

  /** Rust's `str::contains` with a string pattern; the empty pattern occurs everywhere. */
  function Contains(hay: string, needle: string): (r: bool)
    ensures r <==> exists i: nat :: OccursAt(hay, needle, i)
    decreases |hay|
  {
    if |needle| <= |hay| && hay[..|needle|] == needle then
      assert OccursAt(hay, needle, 0);
      true
    else if |hay| == 0 then
      false
    else
      var rest := Contains(hay[1..], needle);
      assert rest ==> exists i: nat :: OccursAt(hay, needle, i) by {
        if rest {
          var i: nat :| OccursAt(hay[1..], needle, i);
          OccursAtShift(hay, needle, i);
        }
      }
      assert (exists i: nat :: OccursAt(hay, needle, i)) ==> rest by {
        if exists i: nat :: OccursAt(hay, needle, i) {
          var i: nat :| OccursAt(hay, needle, i);
          assert i != 0;
          OccursAtShift(hay, needle, i - 1);
        }
      }
      rest
  }

  /** The index of the last `c` in `s`, if there is one. */
  function LastIndexOf(s: string, c: char): (r: Option<nat>)
    ensures r.Some? ==> r.value < |s| && s[r.value] == c
    ensures r.Some? ==> forall j :: r.value < j < |s| ==> s[j] != c
    ensures r.None? ==> c !in s
    decreases |s|
  {
    if |s| == 0 then None
    else if s[|s| - 1] == c then Some(|s| - 1)
    else
      var r := LastIndexOf(s[..|s| - 1], c);
      assert r.None? ==> c !in s by {
        assert s == s[..|s| - 1] + [s[|s| - 1]];
      }
      r
  }

  /** The last occurrence is determined: a `c` with none after it is the one found. */
  lemma LastIndexOfAt(s: string, c: char, k: nat)
    requires k < |s| && s[k] == c
    requires forall j :: k < j < |s| ==> s[j] != c
    ensures LastIndexOf(s, c) == Some(k)
  {
    var r := LastIndexOf(s, c);
    assert c in s;
  }
}

=== FILE: wrappers.dfy ===
/** The optional value shared by the other modules. */
module Wrappers {

  /** Rust's `Option<T>`. */
  datatype Option<+T> = None | Some(value: T) {

    /** Rust's `unwrap_or`. */
    function GetOr(default: T): T {
      match this
      case Some(v) => v
      case None => default
    }
  }
}
